=== FILE: README.md ===
# Polygon editor: a Dafny model of the editing core

The polygon editor is a single-window PyQt6 program. A user places regular
polygons ("nodes") on a canvas, deletes them, drags them and joins pairs of
them with connections. The arrangement can be saved to JSON and loaded back.
All state lives in module-level globals:

- the node list, where each node is a center, a radius and a side count;
- the connection list, where each connection is a pair of node indices;
- the current mode;
- the defaults for new nodes (radius 30, five sides);
- the selected node and its grab offset;
- the pending first click of a connection.

This project models that state and its handlers as pure functions from one
editor state to the next, then proves what they keep and what they compute.

| file | module | what it holds |
|---|---|---|
| `wrappers.dfy` | `Wrappers` | `Option` and `Result`, used for a missing hit and for Python exceptions |
| `geometry.dfy` | `Geometry` | integer points, their difference, Manhattan length, the polygon vertex loop |
| `scene.dfy` | `SceneModel` | the node and connection lists; the hit test; create, delete with index renumbering, and duplicate-free connect; the connection invariant and its preservation |
| `controller.dfy` | `Controller` | the session globals; every handler; mouse and toolbar dispatch; event runs; the editor invariant |
| `persistence.dfy` | `Persistence` | the saved JSON document, save, load, and the save/load round trip |
| `loaded_connections.dfy` | `LoadedConnections` | the connect handler's duplicate check as written, against a connection list that came from a load (see Findings) |
| `scenarios.dfy` | `Scenarios` | whole event runs: a create, connect and delete session, and a stale selection that faults |

Modelling choices:

- A click hits a node when the Manhattan distance from the click to the node's
  center is at most the node's radius. Every handler takes the first such
  node in list order.
- Python exceptions that the handlers can raise become `Err` results. PyQt6
  aborts the application when an exception escapes a slot, so nothing after
  a fault is modelled. Two such exceptions are modelled:
  - the `IndexError` of a move that writes through a selection index that is
    out of range;
  - the `KeyError`/`TypeError`/`IndexError` of a load of a malformed document.

  The `IndexError` and `TypeError` that a repaint can raise are not
  modelled (see "Left out"). The repaint raises them when a connection's
  endpoint does not index the node list, or when a loaded node's radius or
  side count is not a number the polygon computation accepts.
- Saving and loading are modelled on the parsed JSON value (`Json`). File
  dialogs and file access are not modelled.
- Where a natural reading of the program's purpose and its code differ, the
  model follows the code, with one exception: the duplicate check of the
  connect handler compares endpoints, which is the corrected behaviour
  described under "Findings". The other places are each stated as a lemma:
  - a move rebuilds the dragged node with the current default radius and
    side count, not its own (`Controller.MoveInPlaceResetsShape`);
  - a load checks nothing, so a document may name nodes that do not exist
    (`Persistence.LoadAcceptsDanglingConnection`);
  - choosing a mode forgets a pending connection start but keeps a move
    selection, which can then outlive its node
    (`Scenarios.StaleSelectionFaults`).

## Model

| member | source | states |
|---|---|---|
| Geometry.PolygonCoords | polygon-editor-functional-2_46.py:21-29 | one vertex per step of `range(sides)`, in order, vertex `i` being the per-vertex formula at `i`; no vertices when the side count is zero or negative |
| SceneModel.HitFrom | polygon-editor-functional-2_46.py:73-74 | scanning from index `from`, the answer is a hit index with no hit before it, or there is no hit at or after `from` |
| SceneModel.HitTest | polygon-editor-functional-2_46.py:119-120 | the answer is the lowest index whose node the click lands on; no answer means the click lands on no node |
| SceneModel.HitTestIsFirstHit | polygon-editor-functional-2_46.py:93-94 | the hit test answers `i` if and only if `i` is the first node hit |
| SceneModel.AddNode | polygon-editor-functional-2_46.py:62-64 | create appends exactly one node, built from the click and the defaults; earlier nodes and all connections are untouched, and the connection invariant is kept |
| SceneModel.AddNodeKeepsHits | polygon-editor-functional-2_46.py:62-64 | after a create, a click that hit an existing node still hits the same node |
| SceneModel.AddNodeIsHit | polygon-editor-functional-2_46.py:62-64 | after a create at a point that hit nothing, a click there hits the new node, given a non-negative radius |
| SceneModel.HitsOwnCenter | polygon-editor-functional-2_46.py:74 | a click at a node's own center lands on it when its radius is not negative |
| SceneModel.RemoveAt | polygon-editor-functional-2_46.py:75 | the pop: one node fewer, nodes before `i` unchanged, nodes after `i` shifted down one place |
| SceneModel.RemoveAtInverse | polygon-editor-functional-2_46.py:75 | putting the popped node back at index `i` restores the original list |
| SceneModel.DropTouching | polygon-editor-functional-2_46.py:77-78 | a connection survives the filter if and only if it was present and has neither endpoint at `i` |
| SceneModel.DropTouchingAppend | polygon-editor-functional-2_46.py:77-78 | the filter distributes over concatenation, so the survivors keep their relative order |
| SceneModel.DropTouchingValid | polygon-editor-functional-2_46.py:77-78 | the filter keeps the connection invariant |
| SceneModel.Renumber | polygon-editor-functional-2_46.py:80-82 | every endpoint below `i` keeps its value and every other endpoint drops by one; the list keeps its length and order |
| SceneModel.RenumberValid | polygon-editor-functional-2_46.py:80-82 | renumbering connections that avoid `i` keeps the connection invariant with one node fewer |
| SceneModel.LinksAfterDeleteValid | polygon-editor-functional-2_46.py:75-82 | deleting an existing node leaves connections with no dangling endpoint, no self-loop and no duplicate |
| SceneModel.LinksAfterDeleteMembers | polygon-editor-functional-2_46.py:77-82 | a connection is present after the delete if and only if it renumbers a connection that did not touch the deleted node |
| SceneModel.UnrenumberAfterDelete | polygon-editor-functional-2_46.py:77-82 | undoing the renumbering gives back exactly the surviving original connections, in their original order |
| SceneModel.DeleteAt | polygon-editor-functional-2_46.py:70-88 | a click that hits nothing changes nothing; otherwise the first node hit is popped and the connections are filtered and renumbered; the connection invariant is kept |
| SceneModel.AddLink | polygon-editor-functional-2_46.py:125-128 | after the connect the pair is linked; at most one entry is appended and the old entries are kept in order; nothing is appended if and only if the pair was already linked in either order, and otherwise the appended entry is `(a, b)` |
| SceneModel.AddLinkValid | polygon-editor-functional-2_46.py:125-128 | connecting two distinct existing nodes keeps the connection invariant |
| SceneModel.AddLinkEitherOrderOnce | polygon-editor-functional-2_46.py:126-127 | connecting `b` to `a` right after `a` to `b` changes nothing |
| SceneModel.PairCountOne | polygon-editor-functional-2_46.py:126-128 | under the invariant, a linked pair occurs exactly once, counting both orders |
| SceneModel.ConnectBothOrdersOnce | polygon-editor-functional-2_46.py:126-128 | connecting `a`,`b` and then `b`,`a` leaves exactly one connection between the two nodes |
| Controller.Initial | polygon-editor-functional-2_46.py:11-18 | start-up state: empty scene, no mode, nothing selected or pending, radius 30, five sides, a zero offset, and the invariant holds |
| Controller.CreateNode | polygon-editor-functional-2_46.py:62-64 | the new last node sits at the click with the session's radius and sides; everything else is unchanged |
| Controller.DeleteNode | polygon-editor-functional-2_46.py:70-88 | the session is untouched; a miss changes nothing; a hit pops the first node hit and leaves exactly the filtered and renumbered connections; the connection invariant is kept |
| Controller.StartMove | polygon-editor-functional-2_46.py:90-97 | a miss changes nothing, not even an earlier selection; a hit selects the first node hit and records an offset such that center plus offset is the press point |
| Controller.HandleMove | polygon-editor-functional-2_46.py:99-105 | with no selection nothing changes; an out-of-range selection faults with an `IndexError`; otherwise only the selected node changes: it is placed at pointer minus offset, with the session's radius and sides |
| Controller.EndMove | polygon-editor-functional-2_46.py:107-114 | release clears the selection and changes nothing else |
| Controller.HandleConnect | polygon-editor-functional-2_46.py:116-134 | a miss changes nothing; a first hit becomes pending; a second hit clears the pending start; a second hit on another node links the pair, appending only if the pair was not linked in either order; the nodes are never touched |
| Controller.SetMode | polygon-editor-functional-2_46.py:159-163 | switches the mode and forgets a pending connection start; the scene and the rest of the session are kept |
| Controller.ChangeSides | polygon-editor-functional-2_46.py:175-178 | changes only the default side count |
| Controller.MousePress | polygon-editor-functional-2_46.py:136-147 | a press with another button, or with no mode, changes nothing; a press never changes the mode or the defaults; only create mode adds nodes and only delete mode removes them |
| Controller.MouseMove | polygon-editor-functional-2_46.py:149-152 | outside move mode motion changes nothing; a motion that does not fault keeps the session, the connections and the node count |
| Controller.MouseRelease | polygon-editor-functional-2_46.py:154-157 | a release never changes the scene; outside move mode it changes nothing; in move mode it clears only the selection |
| Controller.StepDispatch | polygon-editor-functional-2_46.py:136-157 | a press acts only for the left button with a mode set, and is routed by mode; motion and release act only in move mode; the only fault is motion in move mode with an out-of-range selection |
| Controller.RunFaultsOnlyOnMotion | polygon-editor-functional-2_46.py:136-178 | a faulting run faults at a motion event reached in move mode whose selection no longer indexes a node: the events before it succeed and the run's result is that motion's fault; a run that does not fault keeps the default radius |
| Controller.StepPreservesInvariant | polygon-editor-functional-2_46.py:62-163 | every event that does not fault keeps the connection invariant and the pending-start invariant |
| Controller.RunPreservesInvariant | polygon-editor-functional-2_46.py:136-163 | any run of events that does not fault keeps the invariant |
| Controller.DragFollowsPointer | polygon-editor-functional-2_46.py:93-104 | after a press grabs a node, moving the pointer by `d` moves the node's center by exactly `d`, wherever inside the node the press landed |
| Controller.MoveInPlaceResetsShape | polygon-editor-functional-2_46.py:103-104 | a move back to the press point restores the center but gives the node the session's radius and side count |
| Controller.SidesAffectLaterCreates | polygon-editor-functional-2_46.py:175-178 | changing the side count leaves every node as it is and sets the side count of the next node created |
| Controller.ReleaseEndsDrag | polygon-editor-functional-2_46.py:107-114 | in move mode a release ends the drag: the scene stays as the last motion left it, and further motion moves nothing |
| Controller.ModeChangeRestartsConnect | polygon-editor-functional-2_46.py:159-163 | after any mode change and a return to connect mode, the next click on a node starts a new connection instead of completing a pending one |
| Persistence.DecodeNode | polygon-editor-functional-2_46.py:210 | an entry decodes if and only if it is a list of at least three items whose first is an object with integer `x` and `y` and whose second and third are integers; the node then carries exactly those values; a bad entry fails with its index |
| Persistence.DecodeNodes | polygon-editor-functional-2_46.py:210-211 | a decoded list has one node per entry, each the decoding of its entry; a failure names an entry that does not decode |
| Persistence.NodeEntries | polygon-editor-functional-2_46.py:210-211 | iteration succeeds exactly for a list, an empty object and an empty string, giving the list's items or nothing; a non-empty object or string fails on entry 0; any other value is not iterable |
| Persistence.DecodeLink | polygon-editor-functional-2_46.py:212 | a connection entry decodes exactly when it is the saved form of some connection, and then to that connection |
| Persistence.DecodeLinks | polygon-editor-functional-2_46.py:212 | the decoded list has one connection per entry, each entry being that connection's saved form; a failure names an entry that does not decode |
| Persistence.Decode | polygon-editor-functional-2_46.py:208-212 | a document loads if and only if it is an object whose "nodes" value iterates entries of node shape and whose "connections" value is a list of saved connections, other keys being ignored; a non-object fails first, then a missing "nodes"; a decoded scene has one node per node entry, decoded in order, and its connections are exactly the saved forms in the "connections" list |
| Persistence.Load | polygon-editor-functional-2_46.py:202-213 | a load replaces the scene with the decoded one and keeps the whole session; a failed load reports the decoding error |
| Persistence.DecodeEncode | polygon-editor-functional-2_46.py:194-212 | loading a saved document gives back the same nodes and connections, both in their original order |
| Persistence.SaveThenLoad | polygon-editor-functional-2_46.py:190-213 | saving and then loading, in any editor state, restores the saved scene and keeps the loading editor's session |
| Persistence.Encode | polygon-editor-functional-2_46.py:194-198 | the saved document has exactly the keys "nodes" and "connections", listing every node and every connection in order in their saved forms |
| Persistence.EncodeInjective | polygon-editor-functional-2_46.py:194-198 | two scenes that save to the same document are the same scene |
| Persistence.PendingStartSurvivesLoad | polygon-editor-functional-2_46.py:116-129 | a pending start kept across a load that names a node beyond the loaded list gets joined to the next loaded node clicked in connect mode, giving a scene that breaks the invariant |
| Persistence.LoadAcceptsDanglingConnection | polygon-editor-functional-2_46.py:210-212 | a document whose connection names nodes that do not exist loads as it is, and breaks the invariant |
| LoadedConnections.ConnectAsWritten | polygon-editor-functional-2_46.py:126-128 | the check as written appends the tuple `(a, b)` if and only if neither tuple `(a, b)` nor tuple `(b, a)` is an entry |
| LoadedConnections.AsWrittenAgreesOnTuples | polygon-editor-functional-2_46.py:126-128 | on a list made only by clicks, the check as written does what `SceneModel.AddLink` does |
| LoadedConnections.LoadedConnectionDuplicated | polygon-editor-functional-2_46.py:126-128 | after a save and a load, connecting an already connected pair appends a duplicate, and the list breaks the invariant |
| LoadedConnections.LoadedConnectionRecognised | polygon-editor-functional-2_46.py:126-128 | with endpoint comparison, the same connect after a load changes nothing |
| Scenarios.RunThrough | polygon-editor-functional-2_46.py:136-163 | a run that steps through a chain of states reaches the last one and continues from there |
| Scenarios.PressConnectSecond | polygon-editor-functional-2_46.py:124-133 | a second click on another unlinked node appends the connection from the pending node and clears the pending start |
| Scenarios.PressDeletes | polygon-editor-functional-2_46.py:140-143 | a left press in delete mode pops the first node hit and filters and renumbers the connections |
| Scenarios.PressGrabs | polygon-editor-functional-2_46.py:144-145 | a left press in move mode selects the first node hit and records the offset from its center |
| Scenarios.DeleteBetweenEndpoints | polygon-editor-functional-2_46.py:77-82 | deleting node 1 turns a connection from node 0 to node 2 into one from node 0 to node 1 |
| Scenarios.CreateConnectDelete | polygon-editor-functional-2_46.py:136-163 | create at three separated points, connect the first to the third, delete the second: the two outer nodes remain, in order, joined by connection (0, 1) |
| Scenarios.WorkedExample | polygon-editor-functional-2_46.py:136-163 | from start-up, the same session with squares at (100,100), (200,100) and (150,200) ends with the outer two squares joined by connection (0, 1) |
| Scenarios.StaleSelectionFaults | polygon-editor-functional-2_46.py:99-104 | grab the only node, delete it in delete mode, return to move mode: the next motion faults with the stale index 0 |

## Left out

- Painting (`paint_canvas`, `handle_paint_event`), PNG export, the widget and window set-up, `main` and every `print`. Apart from the repaint faults described under `Persistence.LoadAcceptsDanglingConnection`, `Persistence.Load` and `Persistence.DecodeNode` below, these are display and I/O only.
- Persistence.LoadAcceptsDanglingConnection: a load requests a repaint (polygon-editor-functional-2_46.py:213), and the repaint indexes the node list with both endpoints of every connection (:42-44). A loaded connection whose endpoint is not a valid Python index into the node list therefore raises `IndexError` at the next paint, and PyQt6 aborts the application. With an empty node list, every endpoint fails, so the document of this lemma aborts the program. The model's `Load` returns `Ok` and editing continues from a state the program never reaches. Painting is not modelled, so this fault is not either.
- File dialogs, file reading and writing, and JSON text. The model starts and ends at the parsed JSON value.
- The trigonometry and float-to-int truncation of `calculate_polygon_coords`. They are a parameter of `Geometry.PolygonCoords`, because the model has no floating point.
- Qt's 32-bit `int` range for point coordinates. Points are unbounded integers, so overflow in `QPoint` arithmetic is not modelled.
- Persistence.Decode: accepts only integer radii and side counts, and connections that are a list of two-integer lists. The program stores other radii, side counts and connections as they are. The model reports a `LoadError` instead. Coordinates are not part of this gap, because `QPoint` at polygon-editor-functional-2_46.py:210 takes only integers. A non-integer coordinate therefore raises `TypeError` in the program too, and the model's `BadNode` corresponds to it.
- Persistence.DecodeNode: the radius and side-count part of that restriction lives here, in `NodeShaped`. The program stores a non-integer radius or side count (:210). A float radius keeps working there: painting multiplies it and truncates with `int` (:26-28), and the hit test compares against it (:74). A JSON boolean acts as 1 or 0 in both places. A string or null radius, or a non-integer side count, raises `TypeError` at the next paint (:24-26) and aborts the application. The model rejects all of these with `BadNode`.
- Persistence.DecodeLink: the connection part lives here. The program stores any value as a connection (:212). A value that is not a pair of node indices fails at the repaint the load requests (:42-44, :213). The model rejects anything other than a list of exactly two integers with `BadConnection`.
- Persistence.Load: a document with "nodes" but no "connections" makes the program replace the node list before the `KeyError`. Because the exception then aborts the application, the model reports only the error.
- Persistence.Load: a load keeps the whole session, including a pending connection start (:202-213 never reset `connection_start`). The start may name a node beyond the loaded node list. The next click on a loaded node in connect mode then appends a connection with a dangling endpoint (:128), and the repaint that follows (:129, :43) raises `IndexError` and aborts the application. The model appends the same connection and carries on from the invalid scene (`Persistence.PendingStartSurvivesLoad`).
- Persistence.NodeEntries: iterating a non-list value is reduced to three cases. An empty object or string gives no nodes, a non-empty one fails on its first entry, and any other value is not iterable.
- Controller.HandleConnect: the scene's connection entries carry no tuple-or-list tag, so the model compares endpoints for every entry, including loaded ones, where the program at polygon-editor-functional-2_46.py:126-128 compares tuples and misses loaded lists (see "Findings"). `Controller.HandleConnect`, `Controller.StepPreservesInvariant` and `Controller.RunPreservesInvariant` therefore describe the program only from states whose connections were all made by clicks or rebuilt as tuples by a delete; `LoadedConnections` models the as-written behaviour after a load.
- The button wiring of `create_window` is assumed to pass only the four mode names to `set_mode` and only the texts "3" to "20" to `change_sides`. `Controller.ChangeSides` accepts any integer.

## Findings

| source | as written | input that shows it | evidently intended | confidence | as-written member | corrected member |
|---|---|---|---|---|---|---|
| polygon-editor-functional-2_46.py:126-128 | the duplicate check looks for the tuples `(a, b)` and `(b, a)`, but after `load_arrangement` every connection is a list `[a, b]`, and a tuple never equals a list | save a scene with nodes 0 and 1 and connection (0, 1), load it, choose connect mode, click node 0 and then node 1: a second connection (0, 1) is appended | a pair that is already connected, in either order, is never connected again, whether the connection came from a click or a load | not executed | LoadedConnections.ConnectAsWritten, LoadedConnections.LoadedConnectionDuplicated | SceneModel.AddLink, SceneModel.AddLinkValid, LoadedConnections.LoadedConnectionRecognised |

=== FILE: controller.dfy ===
/** The interaction controller: the editing session, the five mouse and
    toolbar handlers, and the dispatch of pointer events by mode. Each
    handler is a pure function from the editor state to the next one. */
module Controller {
  import opened Wrappers
  import opened Geometry
  import opened SceneModel

  /** The active editing mode; `NoMode` is the initial `None`. */
  datatype Mode = NoMode | Create | Delete | Move | Connect

  datatype Button = LeftButton | OtherButton

  /** Session state next to the scene: the mode, the defaults used for new
      (and moved) nodes, the node being dragged with its grab offset, and
      the pending first click of a connection. */
  datatype Session = Session(
    mode: Mode,
    radius: int,
    sides: int,
    selected: Option<nat>,
    offset: Point,
    pending: Option<nat>)

  datatype Editor = Editor(scene: Scene, session: Session)

  /** Writing a moved node back through a selection that no longer indexes
      the node list raises an index error in the source. */
  datatype Fault = SelectionOutOfRange(index: nat)

  const InitialRadius := 30
  const InitialSides := 5

  /** The state at start-up: empty scene, no mode, radius 30, five sides. */
  function Initial(): (ed: Editor)
    ensures Invariant(ed)
    ensures ed.scene.nodes == [] && ed.scene.links == []
    ensures ed.session.mode == NoMode && ed.session.pending.None? && ed.session.selected.None?
    ensures ed.session.radius == 30 && ed.session.sides == 5 && ed.session.offset == Point(0, 0)
  {
    Editor(Scene([], []), Session(NoMode, InitialRadius, InitialSides, None, Point(0, 0), None))
  }

  /** What every reachable state satisfies (loading a file aside): the
      connection invariant, and a pending connection start only in connect
      mode and only at an existing node. */
  predicate Invariant(ed: Editor) {
    && ValidScene(ed.scene)
    && (ed.session.pending.Some? ==>
          ed.session.mode == Connect && ed.session.pending.value < |ed.scene.nodes|)
  }

  // ---------------------------------------------------------------------
  // Handlers

  /** Create: append a node at the click with the current defaults. */
  function CreateNode(ed: Editor, pos: Point): (r: Editor)
    ensures r.session == ed.session
    ensures |r.scene.nodes| == |ed.scene.nodes| + 1
    ensures r.scene.nodes[..|ed.scene.nodes|] == ed.scene.nodes
    ensures r.scene.nodes[|ed.scene.nodes|] == Node(pos, ed.session.radius, ed.session.sides)
    ensures r.scene.links == ed.scene.links
  {
    ed.(scene := AddNode(ed.scene, pos, ed.session.radius, ed.session.sides))
  }

  /** Delete: remove the first node hit, with its connections. */
  function DeleteNode(ed: Editor, pos: Point): (r: Editor)
    ensures r.session == ed.session
    ensures HitTest(ed.scene.nodes, pos).None? ==> r == ed
    ensures HitTest(ed.scene.nodes, pos).Some? ==>
              && r.scene.nodes == RemoveAt(ed.scene.nodes, HitTest(ed.scene.nodes, pos).value)
              && r.scene.links == LinksAfterDelete(ed.scene.links, HitTest(ed.scene.nodes, pos).value)
    ensures ValidScene(ed.scene) ==> ValidScene(r.scene)
  {
    ed.(scene := DeleteAt(ed.scene, pos))
  }

  /** Press in move mode: select the first node hit and remember where in it
      the pointer grabbed it. A miss leaves everything, including an earlier
      selection, as it was. */
  function StartMove(ed: Editor, pos: Point): (r: Editor)
    ensures r.scene == ed.scene
    ensures HitTest(ed.scene.nodes, pos).None? ==> r == ed
    ensures HitTest(ed.scene.nodes, pos).Some? ==>
              var i := HitTest(ed.scene.nodes, pos).value;
              && r.session.selected == Some(i)
              && Add(ed.scene.nodes[i].center, r.session.offset) == pos
              && r.session == ed.session.(selected := r.session.selected, offset := r.session.offset)
  {
    match HitTest(ed.scene.nodes, pos)
    case None => ed
    case Some(i) =>
      ed.(session := ed.session.(selected := Some(i), offset := Sub(pos, ed.scene.nodes[i].center)))
  }

  /** Pointer motion in move mode: the selected node is rebuilt at
      `pos - offset` with the session's radius and side count, not its own. */
  function HandleMove(ed: Editor, pos: Point): (r: Result<Editor, Fault>)
    ensures ed.session.selected.None? ==> r == Ok(ed)
    ensures ed.session.selected.Some? && ed.session.selected.value >= |ed.scene.nodes| ==>
              r == Err(SelectionOutOfRange(ed.session.selected.value))
    ensures ed.session.selected.Some? && ed.session.selected.value < |ed.scene.nodes| ==>
              var i := ed.session.selected.value;
              && r.Ok?
              && r.value.session == ed.session
              && r.value.scene.links == ed.scene.links
              && |r.value.scene.nodes| == |ed.scene.nodes|
              && Add(r.value.scene.nodes[i].center, ed.session.offset) == pos
              && r.value.scene.nodes[i].radius == ed.session.radius
              && r.value.scene.nodes[i].sides == ed.session.sides
              && forall j :: 0 <= j < |ed.scene.nodes| && j != i ==>
                   r.value.scene.nodes[j] == ed.scene.nodes[j]
  {
    match ed.session.selected
    case None => Ok(ed)
    case Some(i) =>
      if i < |ed.scene.nodes| then
        var moved := Node(Sub(pos, ed.session.offset), ed.session.radius, ed.session.sides);
        Ok(ed.(scene := ed.scene.(nodes := ed.scene.nodes[i := moved])))
      else
        Err(SelectionOutOfRange(i))
  }

  /** Release in move mode: drop the selection. */
  function EndMove(ed: Editor): (r: Editor)
    ensures r.scene == ed.scene
    ensures r.session.selected.None?
    ensures r.session == ed.session.(selected := None)
  {
    ed.(session := ed.session.(selected := None))
  }

  /** Press in connect mode: the two-click protocol. */
  function HandleConnect(ed: Editor, pos: Point): (r: Editor)
    ensures r.scene.nodes == ed.scene.nodes
    ensures HitTest(ed.scene.nodes, pos).None? ==> r == ed
    ensures HitTest(ed.scene.nodes, pos).Some? && ed.session.pending.None? ==>
              && r.scene == ed.scene
              && r.session == ed.session.(pending := HitTest(ed.scene.nodes, pos))
    ensures HitTest(ed.scene.nodes, pos).Some? && ed.session.pending.Some? ==>
              r.session == ed.session.(pending := None)
    ensures HitTest(ed.scene.nodes, pos).Some? && ed.session.pending == HitTest(ed.scene.nodes, pos) ==>
              r.scene == ed.scene
    ensures HitTest(ed.scene.nodes, pos).Some? && ed.session.pending.Some?
            && ed.session.pending != HitTest(ed.scene.nodes, pos) ==>
              var a := ed.session.pending.value;
              var b := HitTest(ed.scene.nodes, pos).value;
              && Linked(r.scene.links, a, b)
              && (Linked(ed.scene.links, a, b) <==> r.scene.links == ed.scene.links)
              && (!Linked(ed.scene.links, a, b) ==> r.scene.links == ed.scene.links + [Link(a, b)])
  {
    match HitTest(ed.scene.nodes, pos)
    case None => ed
    case Some(i) =>
      match ed.session.pending
      case None => ed.(session := ed.session.(pending := Some(i)))
      case Some(a) =>
        var links := if a != i then AddLink(ed.scene.links, a, i) else ed.scene.links;
        Editor(ed.scene.(links := links), ed.session.(pending := None))
  }

  /** A toolbar mode button: switch mode and forget a pending connection
      start. The selection is left as it is. */
  function SetMode(ed: Editor, m: Mode): (r: Editor)
    ensures r.scene == ed.scene
    ensures r.session.mode == m && r.session.pending.None?
    ensures r.session == ed.session.(mode := m, pending := None)
  {
    ed.(session := ed.session.(mode := m, pending := None))
  }

  /** The side-count selector: only the default changes. */
  function ChangeSides(ed: Editor, n: int): (r: Editor)
    ensures r.scene == ed.scene
    ensures r.session == ed.session.(sides := n)
  {
    ed.(session := ed.session.(sides := n))
  }

  // ---------------------------------------------------------------------
  // Dispatch

  /** Mouse press: only the left button, only with a mode, routed by mode. */
  function MousePress(ed: Editor, button: Button, pos: Point): (r: Editor)
    ensures button != LeftButton || ed.session.mode == NoMode ==> r == ed
    ensures r.session.mode == ed.session.mode
    ensures r.session.radius == ed.session.radius && r.session.sides == ed.session.sides
    ensures ed.session.mode != Create ==> |r.scene.nodes| <= |ed.scene.nodes|
    ensures ed.session.mode != Delete ==>
              |ed.scene.nodes| <= |r.scene.nodes| && r.scene.nodes[..|ed.scene.nodes|] == ed.scene.nodes
  {
    if button != LeftButton then ed
    else match ed.session.mode
      case NoMode => ed
      case Create => CreateNode(ed, pos)
      case Delete => DeleteNode(ed, pos)
      case Move => StartMove(ed, pos)
      case Connect => HandleConnect(ed, pos)
  }

  /** Mouse motion: only in move mode. */
  function MouseMove(ed: Editor, pos: Point): (r: Result<Editor, Fault>)
    ensures ed.session.mode != Move ==> r == Ok(ed)
    ensures r.Ok? ==> r.value.session == ed.session && r.value.scene.links == ed.scene.links
    ensures r.Ok? ==> |r.value.scene.nodes| == |ed.scene.nodes|
  {
    if ed.session.mode == Move then HandleMove(ed, pos) else Ok(ed)
  }

  /** Mouse release: only in move mode. */
  function MouseRelease(ed: Editor): (r: Editor)
    ensures r.scene == ed.scene
    ensures ed.session.mode != Move ==> r == ed
    ensures ed.session.mode == Move ==> r.session == ed.session.(selected := None)
  {
    if ed.session.mode == Move then EndMove(ed) else ed
  }

  /** The events that reach the controller from the canvas and the toolbar. */
  datatype Event =
    | Pressed(button: Button, pos: Point)
    | Moved(pos: Point)
    | Released
    | ModeChosen(mode: Mode)
    | SidesChosen(sides: int)

  /** One event applied to the editor. */
  function Step(ed: Editor, ev: Event): Result<Editor, Fault> {
    match ev
    case Pressed(button, pos) => Ok(MousePress(ed, button, pos))
    case Moved(pos) => MouseMove(ed, pos)
    case Released => Ok(MouseRelease(ed))
    case ModeChosen(m) => Ok(SetMode(ed, m))
    case SidesChosen(n) => Ok(ChangeSides(ed, n))
  }

  /** The dispatch rules: a press acts only for the left button and only
      with a mode, routed by mode; motion and release act only in move mode;
      a mode button always clears the pending connection start; the side
      selector changes only the default. Only a motion can fail, and only
      through a selection that no longer indexes a node. */
  lemma StepDispatch(ed: Editor, ev: Event)
    ensures ev.Pressed? && (ev.button != LeftButton || ed.session.mode == NoMode) ==>
              Step(ed, ev) == Ok(ed)
    ensures ev.Pressed? && ev.button == LeftButton && ed.session.mode == Create ==>
              Step(ed, ev) == Ok(CreateNode(ed, ev.pos))
    ensures ev.Pressed? && ev.button == LeftButton && ed.session.mode == Delete ==>
              Step(ed, ev) == Ok(DeleteNode(ed, ev.pos))
    ensures ev.Pressed? && ev.button == LeftButton && ed.session.mode == Move ==>
              Step(ed, ev) == Ok(StartMove(ed, ev.pos))
    ensures ev.Pressed? && ev.button == LeftButton && ed.session.mode == Connect ==>
              Step(ed, ev) == Ok(HandleConnect(ed, ev.pos))
    ensures (ev.Moved? || ev.Released?) && ed.session.mode != Move ==> Step(ed, ev) == Ok(ed)
    ensures ev.Moved? && ed.session.mode == Move ==> Step(ed, ev) == HandleMove(ed, ev.pos)
    ensures ev.Released? && ed.session.mode == Move ==> Step(ed, ev) == Ok(EndMove(ed))
    ensures ev.ModeChosen? ==>
              && Step(ed, ev).Ok?
              && Step(ed, ev).value.scene == ed.scene
              && Step(ed, ev).value.session == ed.session.(mode := ev.mode, pending := None)
    ensures ev.SidesChosen? ==>
              && Step(ed, ev).Ok?
              && Step(ed, ev).value.scene == ed.scene
              && Step(ed, ev).value.session == ed.session.(sides := ev.sides)
    ensures Step(ed, ev).Err? ==>
              && ev.Moved? && ed.session.mode == Move
              && ed.session.selected.Some?
              && ed.session.selected.value >= |ed.scene.nodes|
  {
  }

  /** A sequence of events, stopping at the first fault. */
  function Run(ed: Editor, events: seq<Event>): Result<Editor, Fault>
    decreases |events|
  {
    if events == [] then Ok(ed)
    else match Step(ed, events[0])
      case Err(f) => Err(f)
      case Ok(next) => Run(next, events[1..])
  }

  // ---------------------------------------------------------------------
  // Properties

  /** Every handler keeps the invariant: the connection list stays free of
      self-loops, unordered duplicates and dangling endpoints. */
  lemma StepPreservesInvariant(ed: Editor, ev: Event)
    requires Invariant(ed)
    requires Step(ed, ev).Ok?
    ensures Invariant(Step(ed, ev).value)
  {
    if ev.Pressed? && ev.button == LeftButton && ed.session.mode == Connect {
      var h := HitTest(ed.scene.nodes, ev.pos);
      if h.Some? && ed.session.pending.Some? && ed.session.pending != h {
        AddLinkValid(ed.scene.links, |ed.scene.nodes|, ed.session.pending.value, h.value);
      }
    }
  }

  /** The invariant holds after any run of events that does not fault. */
  lemma {:induction false} RunPreservesInvariant(ed: Editor, events: seq<Event>)
    requires Invariant(ed)
    requires Run(ed, events).Ok?
    ensures Invariant(Run(ed, events).value)
    decreases |events|
  {
    if events != [] {
      StepPreservesInvariant(ed, events[0]);
      RunPreservesInvariant(Step(ed, events[0]).value, events[1..]);
    }
  }

  /** The run of `events` faults at event `k`: the events before it succeed,
      event `k` is a motion in move mode whose selection no longer indexes a
      node, and the run's result is that motion's fault. */
  predicate FaultsAt(ed: Editor, events: seq<Event>, k: nat)
    requires k < |events|
  {
    var before := Run(ed, events[..k]);
    && before.Ok? && events[k].Moved? && before.value.session.mode == Move
    && before.value.session.selected.Some?
    && before.value.session.selected.value >= |before.value.scene.nodes|
    && Step(before.value, events[k]).Err?
    && Run(ed, events) == Step(before.value, events[k])
  }

  /** A run faults only at a motion event in move mode whose selection no
      longer indexes a node, and no run changes the default radius. */
  lemma {:induction false} RunFaultsOnlyOnMotion(ed: Editor, events: seq<Event>)
    ensures Run(ed, events).Err? ==> exists k: nat :: k < |events| && FaultsAt(ed, events, k)
    ensures Run(ed, events).Ok? ==> Run(ed, events).value.session.radius == ed.session.radius
    decreases |events|
  {
    if events != [] {
      var first := Step(ed, events[0]);
      if first.Err? {
        StepDispatch(ed, events[0]);
        assert events[..0] == [];
        assert Run(ed, events[..0]) == Ok(ed);
        assert FaultsAt(ed, events, 0);
      } else {
        var next := first.value;
        assert next.session.radius == ed.session.radius by { StepDispatch(ed, events[0]); }
        RunFaultsOnlyOnMotion(next, events[1..]);
        if Run(ed, events).Err? {
          var k: nat :| k < |events[1..]| && FaultsAt(next, events[1..], k);
          var prefix := events[..k + 1];
          assert prefix != [] && prefix[0] == events[0];
          assert prefix[1..] == events[1..][..k];
          assert Run(ed, prefix) == Run(next, events[1..][..k]);
          assert events[1..][k] == events[k + 1];
          assert FaultsAt(ed, events, k + 1);
        }
      }
    }
  }

  /** Dragging: after a press that grabs node `i` and a motion to any point,
      the node's center has moved by exactly the pointer displacement,
      wherever inside the node the press landed. */
  lemma DragFollowsPointer(ed: Editor, press: Point, delta: Point)
    requires HitTest(ed.scene.nodes, press).Some?
    ensures var i := HitTest(ed.scene.nodes, press).value;
            var r := HandleMove(StartMove(ed, press), Add(press, delta));
            && r.Ok?
            && r.value.scene.nodes[i].center == Add(ed.scene.nodes[i].center, delta)
  {
  }

  /** A motion back to the press point restores the node's center, but the
      node takes the session's radius and side count: a move resets the
      node's shape to the current selector value. */
  lemma MoveInPlaceResetsShape(ed: Editor, press: Point)
    requires HitTest(ed.scene.nodes, press).Some?
    ensures var i := HitTest(ed.scene.nodes, press).value;
            var r := HandleMove(StartMove(ed, press), press);
            && r.Ok?
            && r.value.scene.nodes[i] == Node(ed.scene.nodes[i].center, ed.session.radius, ed.session.sides)
  {
  }

  /** Changing the side count leaves every existing node alone and shapes
      the next node created. */
  lemma SidesAffectLaterCreates(ed: Editor, n: int, pos: Point)
    ensures ChangeSides(ed, n).scene == ed.scene
    ensures var r := CreateNode(ChangeSides(ed, n), pos);
            && r.scene.nodes[..|ed.scene.nodes|] == ed.scene.nodes
            && r.scene.nodes[|ed.scene.nodes|].sides == n
  {
  }

  /** Releasing ends the drag: the scene stays where the last motion left
      it, and further motion in move mode moves nothing. */
  lemma ReleaseEndsDrag(ed: Editor, pos: Point)
    requires ed.session.mode == Move
    ensures Step(ed, Released) == Ok(EndMove(ed))
    ensures EndMove(ed).scene == ed.scene
    ensures Step(EndMove(ed), Moved(pos)) == Ok(EndMove(ed))
  {
    StepDispatch(ed, Released);
    StepDispatch(EndMove(ed), Moved(pos));
  }

  /** Choosing a mode abandons a half-made connection: back in connect
      mode, the next click on a node starts a new connection instead of
      completing the old one. */
  lemma ModeChangeRestartsConnect(ed: Editor, m: Mode, pos: Point)
    requires HitTest(ed.scene.nodes, pos).Some?
    ensures var again := SetMode(SetMode(ed, m), Connect);
            var r := HandleConnect(again, pos);
            && r.scene == ed.scene
            && r.session.pending == HitTest(ed.scene.nodes, pos)
  {
  }
}

=== FILE: geometry.dfy ===
/** Integer plane geometry used by the editor: points, their difference and
    the Manhattan length that the hit test relies on. */
module Geometry {

  /** An integer point, standing for the toolkit's QPoint. */
  datatype Point = Point(x: int, y: int)

  function Abs(v: int): (r: nat)
    ensures r == v || r == -v
  {
    if v < 0 then -v else v
  }

  /** Component-wise difference `p - q`. */
  function Sub(p: Point, q: Point): Point {
    Point(p.x - q.x, p.y - q.y)
  }

  /** Component-wise sum `p + q`. */
  function Add(p: Point, q: Point): Point {
    Point(p.x + q.x, p.y + q.y)
  }

  /** `|x| + |y|`, the toolkit's manhattanLength. */
  function ManhattanLength(p: Point): (r: nat)
  {
    Abs(p.x) + Abs(p.y)
  }

  /** The vertex list of a regular polygon. The trigonometry and the float
      truncation of each vertex are hidden in `vertex`, which maps
      (center, radius, sides, i) to vertex `i`; what is modelled is that one
      vertex is produced per step of `range(sides)`, in order. */
  method PolygonCoords(center: Point, radius: int, sides: int,
                       vertex: (Point, int, int, nat) -> Point)
    returns (pts: seq<Point>)
    ensures |pts| == if sides < 0 then 0 else sides
    ensures forall i :: 0 <= i < |pts| ==> pts[i] == vertex(center, radius, sides, i)
  {
    pts := [];
    var i := 0;
    while i < sides
      invariant 0 <= i
      invariant i <= (if sides < 0 then 0 else sides)
      invariant |pts| == i
      invariant forall j :: 0 <= j < i ==> pts[j] == vertex(center, radius, sides, j)
    {
      pts := pts + [vertex(center, radius, sides, i)];
      i := i + 1;
    }
  }
}

=== FILE: loaded_connections.dfy ===
/** The duplicate check of the connect handler, as written, against a
    connection list that came from a load.

    A click stores a connection as the tuple `(a, b)`; a load stores each
    connection as the list `[a, b]` that the JSON reader produces. The
    handler asks whether the tuples `(a, b)` or `(b, a)` occur in the list,
    and a tuple never equals a list, so a loaded connection is invisible to
    that check. The main model (`SceneModel.AddLink`) compares endpoints,
    which is what the check evidently means. */
module LoadedConnections {
  import opened SceneModel
  import opened Persistence

  /** A connection as a source value: a tuple from a click or a list from a load. */
  datatype PyPair = PyTuple(start: int, end: int) | PyList(start: int, end: int)

  /** The endpoints of a connection, whatever its representation. */
  function Erase(p: PyPair): Link {
    Link(p.start, p.end)
  }

  function EraseAll(ps: seq<PyPair>): (r: seq<Link>)
    ensures |r| == |ps|
    ensures forall k :: 0 <= k < |r| ==> r[k] == Erase(ps[k])
  {
    seq(|ps|, k requires 0 <= k < |ps| => Erase(ps[k]))
  }

  /** The connection list as a load leaves it: every entry a list. */
  function AsLoaded(links: seq<Link>): (r: seq<PyPair>)
    ensures EraseAll(r) == links
    ensures forall k :: 0 <= k < |r| ==> r[k].PyList?
  {
    seq(|links|, k requires 0 <= k < |links| => PyList(links[k].start, links[k].end))
  }

  /** The connect handler's update as written: append the tuple `(a, b)`
      unless the tuple `(a, b)` or the tuple `(b, a)` is an entry. */
  function ConnectAsWritten(conns: seq<PyPair>, a: int, b: int): (r: seq<PyPair>)
    ensures r == conns || r == conns + [PyTuple(a, b)]
    ensures r == conns <==> PyTuple(a, b) in conns || PyTuple(b, a) in conns
  {
    if PyTuple(a, b) in conns || PyTuple(b, a) in conns then conns else conns + [PyTuple(a, b)]
  }

  /** On a list built by clicks alone the check as written is the intended
      one: it agrees with `SceneModel.AddLink`. */
  lemma AsWrittenAgreesOnTuples(conns: seq<PyPair>, a: int, b: int)
    requires forall k :: 0 <= k < |conns| ==> conns[k].PyTuple?
    ensures EraseAll(ConnectAsWritten(conns, a, b)) == AddLink(EraseAll(conns), a, b)
  {
    var links := EraseAll(conns);
    if Linked(links, a, b) {
      if Link(a, b) in links {
        var k :| 0 <= k < |links| && links[k] == Link(a, b);
        assert conns[k] == PyTuple(a, b);
      } else {
        var k :| 0 <= k < |links| && links[k] == Link(b, a);
        assert conns[k] == PyTuple(b, a);
      }
    } else {
      var r := ConnectAsWritten(conns, a, b);
      assert EraseAll(r) == links + [Link(a, b)];
    }
  }

  /** Save a valid scene holding a connection between `a` and `b`, load it
      back, and click `a` then `b` in connect mode: the handler as written
      appends a second connection between the same two nodes, which no
      connection list satisfying the invariant contains. */
  lemma LoadedConnectionDuplicated(s: Scene, a: int, b: int)
    requires Linked(s.links, a, b)
    ensures Decode(Encode(s)).Ok?
    ensures var loaded := AsLoaded(Decode(Encode(s)).value.links);
            && EraseAll(ConnectAsWritten(loaded, a, b)) == s.links + [Link(a, b)]
            && !ValidLinks(EraseAll(ConnectAsWritten(loaded, a, b)), |s.nodes|)
  {
    DecodeEncode(s);
    var loaded := AsLoaded(s.links);
    assert PyTuple(a, b) !in loaded && PyTuple(b, a) !in loaded by {
      forall k | 0 <= k < |loaded|
        ensures loaded[k] != PyTuple(a, b) && loaded[k] != PyTuple(b, a)
      {
        assert loaded[k].PyList?;
      }
    }
    var after := EraseAll(ConnectAsWritten(loaded, a, b));
    assert after == s.links + [Link(a, b)];
    var k :| 0 <= k < |s.links| && (s.links[k] == Link(a, b) || s.links[k] == Link(b, a));
    assert after[k] == s.links[k] && after[|s.links|] == Link(a, b);
    assert SameUnordered(after[k], after[|s.links|]);
  }

  /** The corrected check, comparing endpoints, recognises the loaded
      connection and leaves the list as it is. */
  lemma LoadedConnectionRecognised(s: Scene, a: int, b: int)
    requires Linked(s.links, a, b)
    ensures Decode(Encode(s)).Ok?
    ensures AddLink(Decode(Encode(s)).value.links, a, b) == s.links
  {
    DecodeEncode(s);
  }
}

=== FILE: persistence.dfy ===
/** Save and load of an arrangement, modelled on the in-memory document that
    is written to and read from JSON: an object with a "nodes" list of
    `[{"x": x, "y": y}, radius, sides]` entries and a "connections" list of
    `[start, end]` pairs. File choice, reading and writing are not modelled. */
module Persistence {
  import opened Wrappers
  import opened Geometry
  import opened SceneModel
  import opened Controller

  /** A parsed JSON value (numbers other than integers are not modelled). */
  datatype Json =
    | JNull
    | JBool(b: bool)
    | JInt(i: int)
    | JStr(s: string)
    | JArr(items: seq<Json>)
    | JObj(fields: map<string, Json>)

  /** Why loading stops: the source raises a TypeError, KeyError or
      IndexError at the corresponding point. */
  datatype LoadError =
    | NotAnObject
    | MissingKey(key: string)
    | NotIterable(key: string)
    | BadNode(index: nat)
    | BadConnection(index: nat)

  // ---------------------------------------------------------------------
  // Save

  function EncodePoint(p: Point): Json {
    JObj(map["x" := JInt(p.x), "y" := JInt(p.y)])
  }

  function EncodeNode(n: Node): Json {
    JArr([EncodePoint(n.center), JInt(n.radius), JInt(n.sides)])
  }

  /** A connection is dumped as the two-element list of its endpoints. */
  function EncodeLink(l: Link): Json {
    JArr([JInt(l.start), JInt(l.end)])
  }

  function EncodeNodes(nodes: seq<Node>): (r: seq<Json>)
    ensures |r| == |nodes|
    ensures forall k :: 0 <= k < |r| ==> r[k] == EncodeNode(nodes[k])
  {
    seq(|nodes|, k requires 0 <= k < |nodes| => EncodeNode(nodes[k]))
  }

  function EncodeLinks(links: seq<Link>): (r: seq<Json>)
    ensures |r| == |links|
    ensures forall k :: 0 <= k < |r| ==> r[k] == EncodeLink(links[k])
  {
    seq(|links|, k requires 0 <= k < |links| => EncodeLink(links[k]))
  }

  /** The document the save action dumps: nodes in order, connections in
      insertion order. */
  function Encode(s: Scene): (r: Json)
    ensures r.JObj? && r.fields.Keys == {"nodes", "connections"}
    ensures r.fields["nodes"].JArr? && |r.fields["nodes"].items| == |s.nodes|
    ensures forall k :: 0 <= k < |s.nodes| ==> r.fields["nodes"].items[k] == EncodeNode(s.nodes[k])
    ensures r.fields["connections"].JArr? && |r.fields["connections"].items| == |s.links|
    ensures forall k :: 0 <= k < |s.links| ==> r.fields["connections"].items[k] == EncodeLink(s.links[k])
  {
    JObj(map["nodes" := JArr(EncodeNodes(s.nodes)), "connections" := JArr(EncodeLinks(s.links))])
  }

  // ---------------------------------------------------------------------
  // Load

  /** One node entry: anything indexable with at least three entries whose
      first is an object with integer "x" and "y". Extra entries and extra
      keys are ignored, as the source only reads `node[0]["x"]`,
      `node[0]["y"]`, `node[1]` and `node[2]`. */
  predicate NodeShaped(j: Json) {
    && j.JArr? && |j.items| >= 3
    && j.items[0].JObj? && "x" in j.items[0].fields && "y" in j.items[0].fields
    && j.items[0].fields["x"].JInt? && j.items[0].fields["y"].JInt?
    && j.items[1].JInt? && j.items[2].JInt?
  }

  function DecodeNode(j: Json, index: nat): (r: Result<Node, LoadError>)
    ensures r.Ok? <==> NodeShaped(j)
    ensures r.Ok? ==>
              && j.JArr? && |j.items| >= 3 && j.items[0].JObj?
              && "x" in j.items[0].fields && j.items[0].fields["x"] == JInt(r.value.center.x)
              && "y" in j.items[0].fields && j.items[0].fields["y"] == JInt(r.value.center.y)
              && j.items[1] == JInt(r.value.radius) && j.items[2] == JInt(r.value.sides)
    ensures r.Err? ==> r.error == BadNode(index)
  {
    if NodeShaped(j) then
      Ok(Node(Point(j.items[0].fields["x"].i, j.items[0].fields["y"].i), j.items[1].i, j.items[2].i))
    else
      Err(BadNode(index))
  }

  /** The node list comprehension: the first bad entry aborts the load. */
  function DecodeNodes(items: seq<Json>, base: nat): (r: Result<seq<Node>, LoadError>)
    ensures r.Ok? ==> |r.value| == |items|
    ensures r.Ok? ==> forall k :: 0 <= k < |items| ==> DecodeNode(items[k], base + k) == Ok(r.value[k])
    ensures r.Err? ==>
              && r.error.BadNode? && base <= r.error.index < base + |items|
              && DecodeNode(items[r.error.index - base], r.error.index).Err?
    decreases |items|
  {
    if items == [] then Ok([])
    else match DecodeNode(items[0], base)
      case Err(e) => Err(e)
      case Ok(n) =>
        match DecodeNodes(items[1..], base + 1)
        case Err(e) => Err(e)
        case Ok(rest) => Ok([n] + rest)
  }

  /** What `for node in value` iterates over: a list's items; an empty
      object or string iterates nothing; a non-empty object or string yields
      strings, which the first subscript rejects; anything else is not
      iterable. */
  function NodeEntries(v: Json): (r: Result<seq<Json>, LoadError>)
    ensures r.Ok? <==> v.JArr? || v == JObj(map[]) || v == JStr("")
    ensures r.Ok? ==> r.value == if v.JArr? then v.items else []
    ensures r.Err? ==> r.error == if v.JObj? || v.JStr? then BadNode(0) else NotIterable("nodes")
  {
    match v
    case JArr(items) => Ok(items)
    case JObj(m) => if |m| == 0 then Ok([]) else Err(BadNode(0))
    case JStr(s) => if |s| == 0 then Ok([]) else Err(BadNode(0))
    case _ => Err(NotIterable("nodes"))
  }

  function DecodeLink(j: Json, index: nat): (r: Result<Link, LoadError>)
    ensures r.Ok? ==> j == EncodeLink(r.value)
    ensures r.Err? ==> r.error == BadConnection(index)
    ensures (exists l :: j == EncodeLink(l)) ==> r.Ok?
  {
    if j.JArr? && |j.items| == 2 && j.items[0].JInt? && j.items[1].JInt?
    then Ok(Link(j.items[0].i, j.items[1].i))
    else Err(BadConnection(index))
  }

  function DecodeLinks(items: seq<Json>, base: nat): (r: Result<seq<Link>, LoadError>)
    ensures r.Ok? ==> |r.value| == |items|
    ensures r.Ok? ==> forall k :: 0 <= k < |items| ==> items[k] == EncodeLink(r.value[k])
    ensures r.Err? ==>
              && r.error.BadConnection? && base <= r.error.index < base + |items|
              && DecodeLink(items[r.error.index - base], r.error.index).Err?
    decreases |items|
  {
    if items == [] then Ok([])
    else match DecodeLink(items[0], base)
      case Err(e) => Err(e)
      case Ok(l) =>
        match DecodeLinks(items[1..], base + 1)
        case Err(e) => Err(e)
        case Ok(rest) => Ok([l] + rest)
  }

  /** The documents a load accepts: an object with a "nodes" value that
      iterates entries of node shape and a "connections" list of saved
      connections. Other keys are ignored. */
  ghost predicate Loadable(doc: Json) {
    && doc.JObj? && "nodes" in doc.fields && "connections" in doc.fields
    && NodeEntries(doc.fields["nodes"]).Ok?
    && (forall e :: e in NodeEntries(doc.fields["nodes"]).value ==> NodeShaped(e))
    && doc.fields["connections"].JArr?
    && (forall c :: c in doc.fields["connections"].items ==> exists l :: c == EncodeLink(l))
  }

  /** The scene a document describes. Connection indices are taken as they
      are: nothing checks them against the node list. */
  function Decode(doc: Json): (r: Result<Scene, LoadError>)
    ensures r.Ok? <==> Loadable(doc)
    ensures !doc.JObj? ==> r == Err(NotAnObject)
    ensures doc.JObj? && "nodes" !in doc.fields ==> r == Err(MissingKey("nodes"))
    ensures r.Ok? ==>
              && doc.JObj? && "nodes" in doc.fields && "connections" in doc.fields
              && NodeEntries(doc.fields["nodes"]).Ok?
              && var entries := NodeEntries(doc.fields["nodes"]).value;
                 && |r.value.nodes| == |entries|
                 && forall k :: 0 <= k < |entries| ==> DecodeNode(entries[k], k) == Ok(r.value.nodes[k])
    ensures r.Ok? ==>
              && doc.fields["connections"].JArr?
              && |r.value.links| == |doc.fields["connections"].items|
              && forall k :: 0 <= k < |r.value.links| ==>
                   doc.fields["connections"].items[k] == EncodeLink(r.value.links[k])
  {
    if !doc.JObj? then Err(NotAnObject)
    else if "nodes" !in doc.fields then Err(MissingKey("nodes"))
    else match NodeEntries(doc.fields["nodes"])
      case Err(e) => Err(e)
      case Ok(entries) =>
        match DecodeNodes(entries, 0)
        case Err(e) => assert entries[e.index] in entries; Err(e)
        case Ok(nodes) =>
          if "connections" !in doc.fields then Err(MissingKey("connections"))
          else if !doc.fields["connections"].JArr? then Err(BadConnection(0))
          else match DecodeLinks(doc.fields["connections"].items, 0)
            case Err(e) => assert doc.fields["connections"].items[e.index] in doc.fields["connections"].items; Err(e)
            case Ok(links) => Ok(Scene(nodes, links))
  }

  /** Loading replaces the whole scene and nothing else: the mode, the
      defaults, a selection and a pending connection start all survive. */
  function Load(ed: Editor, doc: Json): (r: Result<Editor, LoadError>)
    ensures r.Ok? ==> r.value.session == ed.session && Decode(doc) == Ok(r.value.scene)
    ensures r.Err? ==> Decode(doc).Err? && r.error == Decode(doc).error
  {
    match Decode(doc)
    case Err(e) => Err(e)
    case Ok(s) => Ok(ed.(scene := s))
  }

  // ---------------------------------------------------------------------
  // Round trip

  lemma DecodeEncodeNode(n: Node, index: nat)
    ensures DecodeNode(EncodeNode(n), index) == Ok(n)
  {
  }

  lemma {:induction false} DecodeEncodeNodes(nodes: seq<Node>, base: nat)
    ensures DecodeNodes(EncodeNodes(nodes), base) == Ok(nodes)
    decreases |nodes|
  {
    if nodes != [] {
      var items := EncodeNodes(nodes);
      assert items[1..] == EncodeNodes(nodes[1..]);
      DecodeEncodeNode(nodes[0], base);
      DecodeEncodeNodes(nodes[1..], base + 1);
      assert [nodes[0]] + nodes[1..] == nodes;
    }
  }

  lemma {:induction false} DecodeEncodeLinks(links: seq<Link>, base: nat)
    ensures DecodeLinks(EncodeLinks(links), base) == Ok(links)
    decreases |links|
  {
    if links != [] {
      var items := EncodeLinks(links);
      assert items[1..] == EncodeLinks(links[1..]);
      DecodeEncodeLinks(links[1..], base + 1);
      assert [links[0]] + links[1..] == links;
    }
  }

  /** Loading what was saved gives back the same nodes in the same order
      and the same connections in the same order. */
  lemma DecodeEncode(s: Scene)
    ensures Decode(Encode(s)) == Ok(s)
  {
    var doc := Encode(s);
    assert doc.fields["nodes"] == JArr(EncodeNodes(s.nodes));
    assert doc.fields["connections"] == JArr(EncodeLinks(s.links));
    DecodeEncodeNodes(s.nodes, 0);
    DecodeEncodeLinks(s.links, 0);
  }

  /** Saving and then loading, from any editor state, restores exactly the
      saved scene and keeps the loading editor's session. */
  lemma SaveThenLoad(saved: Scene, ed: Editor)
    ensures Load(ed, Encode(saved)) == Ok(ed.(scene := saved))
  {
    DecodeEncode(saved);
  }

  /** Two scenes with the same saved document are the same scene. */
  lemma EncodeInjective(s: Scene, t: Scene)
    requires Encode(s) == Encode(t)
    ensures s == t
  {
    DecodeEncode(s);
    DecodeEncode(t);
  }

  /** Load does not validate: a document whose connection names a node that
      does not exist loads, and the loaded scene breaks the connection
      invariant that the editing handlers maintain. */
  lemma LoadAcceptsDanglingConnection(ed: Editor, a: int, b: int)
    requires a != b
    ensures var doc := JObj(map["nodes" := JArr([]), "connections" := JArr([JArr([JInt(a), JInt(b)])])]);
            && Load(ed, doc) == Ok(ed.(scene := Scene([], [Link(a, b)])))
            && !ValidScene(Load(ed, doc).value.scene)
  {
    var doc := JObj(map["nodes" := JArr([]), "connections" := JArr([JArr([JInt(a), JInt(b)])])]);
    assert doc.fields["nodes"] == JArr([]);
    var cs := [JArr([JInt(a), JInt(b)])];
    assert doc.fields["connections"] == JArr(cs);
    assert DecodeLink(cs[0], 0) == Ok(Link(a, b));
    assert cs[1..] == [];
    assert DecodeLinks(cs[1..], 1) == Ok([]);
    assert [Link(a, b)] + [] == [Link(a, b)];
    assert DecodeLinks(cs, 0) == Ok([Link(a, b)]);
    var loaded := Scene([], [Link(a, b)]);
    assert !LinkValid(loaded.links[0], |loaded.nodes|);
  }

  /** Load keeps a pending connection start. When the start names a node
      beyond the loaded node list, the next click on a loaded node in
      connect mode appends a connection with a dangling endpoint. */
  lemma PendingStartSurvivesLoad(ed: Editor, doc: Json, c: Point)
    requires ed.session.mode == Connect && ed.session.pending.Some?
    requires Decode(doc).Ok? && Decode(doc).value.links == []
    requires ed.session.pending.value >= |Decode(doc).value.nodes|
    requires HitTest(Decode(doc).value.nodes, c).Some?
    ensures var after := HandleConnect(Load(ed, doc).value, c);
            && after.scene.links == [Link(ed.session.pending.value, HitTest(Decode(doc).value.nodes, c).value)]
            && after.session.pending.None?
            && !ValidScene(after.scene)
  {
    var loaded := Load(ed, doc).value;
    var h := HitTest(loaded.scene.nodes, c).value;
    assert h < |loaded.scene.nodes|;
    assert !Linked([], ed.session.pending.value, h);
    var after := HandleConnect(loaded, c);
    assert [] + [Link(ed.session.pending.value, h)] == [Link(ed.session.pending.value, h)];
    assert !LinkValid(after.scene.links[0], |after.scene.nodes|);
  }
}

=== FILE: scenarios.dfy ===
/** Concrete editing sessions run through the event dispatcher. */
module Scenarios {
  import opened Wrappers
  import opened Geometry
  import opened SceneModel
  import opened Controller

  /** A run whose first event succeeds continues from that event's result. */
  lemma RunFirst(ed: Editor, ev: Event, rest: seq<Event>)
    requires Step(ed, ev).Ok?
    ensures Run(ed, [ev] + rest) == Run(Step(ed, ev).value, rest)
  {
    assert ([ev] + rest)[1..] == rest;
  }

  /** If each event takes `states[k]` to `states[k + 1]`, running the events
      from the first state reaches the last one and continues from there. */
  lemma {:induction false} RunThrough(states: seq<Editor>, events: seq<Event>, rest: seq<Event>)
    requires |states| == |events| + 1
    requires forall k :: 0 <= k < |events| ==> Step(states[k], events[k]) == Ok(states[k + 1])
    ensures Run(states[0], events + rest) == Run(states[|events|], rest)
    decreases |events|
  {
    if events != [] {
      var tail := states[1..];
      forall k | 0 <= k < |events| - 1
        ensures Step(tail[k], events[1..][k]) == Ok(tail[k + 1])
      {
        assert Step(states[k + 1], events[k + 1]) == Ok(states[k + 2]);
      }
      RunThrough(tail, events[1..], rest);
      assert events + rest == [events[0]] + (events[1..] + rest);
      RunFirst(states[0], events[0], events[1..] + rest);
    } else {
      assert events + rest == rest;
    }
  }

  // ---------------------------------------------------------------------
  // Three polygons, one connection, one delete

  /** A square of the default radius. */
  function Square(p: Point): Node { Node(p, InitialRadius, 4) }

  /** The session with four sides chosen and nothing selected or pending. */
  function Idle(m: Mode): Session { Session(m, InitialRadius, 4, None, Point(0, 0), None) }

  /** Choose four sides, create polygons at `p1`, `p2`, `p3`, connect the
      first to the third, then delete the second. */
  function ScriptEvents(p1: Point, p2: Point, p3: Point): seq<Event> {
    [SidesChosen(4), ModeChosen(Create),
     Pressed(LeftButton, p1), Pressed(LeftButton, p2), Pressed(LeftButton, p3),
     ModeChosen(Connect), Pressed(LeftButton, p1), Pressed(LeftButton, p3),
     ModeChosen(Delete), Pressed(LeftButton, p2)]
  }

  /** The editor after each event of the script. */
  function ScriptStates(p1: Point, p2: Point, p3: Point): seq<Editor> {
    var three := [Square(p1), Square(p2), Square(p3)];
    [ Initial(),
      Editor(Scene([], []), Idle(NoMode)),
      Editor(Scene([], []), Idle(Create)),
      Editor(Scene([Square(p1)], []), Idle(Create)),
      Editor(Scene([Square(p1), Square(p2)], []), Idle(Create)),
      Editor(Scene(three, []), Idle(Create)),
      Editor(Scene(three, []), Idle(Connect)),
      Editor(Scene(three, []), Idle(Connect).(pending := Some(0))),
      Editor(Scene(three, [Link(0, 2)]), Idle(Connect)),
      Editor(Scene(three, [Link(0, 2)]), Idle(Delete)),
      Editor(Scene([Square(p1), Square(p3)], [Link(0, 1)]), Idle(Delete)) ]
  }

  /** The three centers lie far enough apart that a click at one of them
      misses every earlier square. */
  predicate Separated(p1: Point, p2: Point, p3: Point) {
    !Hits(Square(p1), p2) && !Hits(Square(p1), p3) && !Hits(Square(p2), p3)
  }

  // ---------------------------------------------------------------------
  // One left-button press per mode

  lemma ChooseMode(ed: Editor, m: Mode)
    ensures Step(ed, ModeChosen(m)) == Ok(ed.(session := ed.session.(mode := m, pending := None)))
  {
    StepDispatch(ed, ModeChosen(m));
  }

  lemma ChooseSides(ed: Editor, n: int)
    ensures Step(ed, SidesChosen(n)) == Ok(ed.(session := ed.session.(sides := n)))
  {
    StepDispatch(ed, SidesChosen(n));
  }

  lemma PressCreates(ed: Editor, p: Point)
    requires ed.session.mode == Create
    ensures Step(ed, Pressed(LeftButton, p))
            == Ok(ed.(scene := Scene(ed.scene.nodes + [Node(p, ed.session.radius, ed.session.sides)], ed.scene.links)))
  {
    StepDispatch(ed, Pressed(LeftButton, p));
  }

  lemma PressConnectFirst(ed: Editor, p: Point, i: nat)
    requires ed.session.mode == Connect && ed.session.pending.None?
    requires HitTest(ed.scene.nodes, p) == Some(i)
    ensures Step(ed, Pressed(LeftButton, p)) == Ok(ed.(session := ed.session.(pending := Some(i))))
  {
    StepDispatch(ed, Pressed(LeftButton, p));
  }

  lemma PressConnectSecond(ed: Editor, p: Point, a: nat, b: nat)
    requires ed.session.mode == Connect && ed.session.pending == Some(a)
    requires HitTest(ed.scene.nodes, p) == Some(b) && a != b && !Linked(ed.scene.links, a, b)
    ensures Step(ed, Pressed(LeftButton, p))
            == Ok(Editor(ed.scene.(links := ed.scene.links + [Link(a, b)]), ed.session.(pending := None)))
  {
    StepDispatch(ed, Pressed(LeftButton, p));
  }

  lemma PressDeletes(ed: Editor, p: Point, i: nat)
    requires ed.session.mode == Delete
    requires HitTest(ed.scene.nodes, p) == Some(i)
    ensures Step(ed, Pressed(LeftButton, p))
            == Ok(ed.(scene := Scene(RemoveAt(ed.scene.nodes, i), LinksAfterDelete(ed.scene.links, i))))
  {
    StepDispatch(ed, Pressed(LeftButton, p));
  }

  lemma PressGrabs(ed: Editor, p: Point, i: nat)
    requires ed.session.mode == Move
    requires HitTest(ed.scene.nodes, p) == Some(i)
    ensures Step(ed, Pressed(LeftButton, p))
            == Ok(ed.(session := ed.session.(selected := Some(i), offset := Sub(p, ed.scene.nodes[i].center))))
  {
    StepDispatch(ed, Pressed(LeftButton, p));
  }

  lemma HitAmongThree(n1: Node, n2: Node, n3: Node, p: Point, i: nat)
    requires i < 3 && Hits([n1, n2, n3][i], p)
    requires forall j :: 0 <= j < i ==> !Hits([n1, n2, n3][j], p)
    ensures HitTest([n1, n2, n3], p) == Some(i)
  {
    HitTestIsFirstHit([n1, n2, n3], p, i);
  }

  lemma HitOnlyNode(n: Node, p: Point)
    requires Hits(n, p)
    ensures HitTest([n], p) == Some(0)
  {
    HitTestIsFirstHit([n], p, 0);
  }

  /** A click at each center hits its own square. */
  lemma ThreeHits(p1: Point, p2: Point, p3: Point)
    requires Separated(p1, p2, p3)
    ensures HitTest([Square(p1), Square(p2), Square(p3)], p1) == Some(0)
    ensures HitTest([Square(p1), Square(p2), Square(p3)], p2) == Some(1)
    ensures HitTest([Square(p1), Square(p2), Square(p3)], p3) == Some(2)
  {
    HitsOwnCenter(Square(p1));
    HitsOwnCenter(Square(p2));
    HitsOwnCenter(Square(p3));
    HitAmongThree(Square(p1), Square(p2), Square(p3), p1, 0);
    HitAmongThree(Square(p1), Square(p2), Square(p3), p2, 1);
    HitAmongThree(Square(p1), Square(p2), Square(p3), p3, 2);
  }

  /** The first five events: choose sides, enter create mode, create three. */
  lemma ScriptCreateStep(p1: Point, p2: Point, p3: Point, k: nat)
    requires k < 5
    ensures Step(ScriptStates(p1, p2, p3)[k], ScriptEvents(p1, p2, p3)[k]) == Ok(ScriptStates(p1, p2, p3)[k + 1])
  {
    var eds, evs := ScriptStates(p1, p2, p3), ScriptEvents(p1, p2, p3);
    if k == 0 {
      assert Step(eds[0], evs[0]) == Ok(eds[1]) by { ChooseSides(eds[0], 4); }
    } else if k == 1 {
      assert Step(eds[1], evs[1]) == Ok(eds[2]) by { ChooseMode(eds[1], Create); }
    } else if k == 2 {
      assert Step(eds[2], evs[2]) == Ok(eds[3]) by { PressCreates(eds[2], p1); }
    } else if k == 3 {
      assert Step(eds[3], evs[3]) == Ok(eds[4]) by {
        PressCreates(eds[3], p2);
        assert [Square(p1)] + [Square(p2)] == [Square(p1), Square(p2)];
      }
    } else {
      assert Step(eds[4], evs[4]) == Ok(eds[5]) by {
        PressCreates(eds[4], p3);
        assert [Square(p1), Square(p2)] + [Square(p3)] == [Square(p1), Square(p2), Square(p3)];
      }
    }
  }

  /** Removing the middle of three nodes leaves the outer two, in order. */
  lemma RemoveMiddle(n1: Node, n2: Node, n3: Node)
    ensures RemoveAt([n1, n2, n3], 1) == [n1, n3]
  {
    assert [n1, n2, n3][..1] == [n1];
  }

  /** Deleting node 1 renumbers a connection from node 0 to node 2 into one
      from node 0 to node 1. */
  lemma DeleteBetweenEndpoints()
    ensures LinksAfterDelete([Link(0, 2)], 1) == [Link(0, 1)]
  {
    assert DropTouching([Link(0, 2)], 1) == [Link(0, 2)];
  }

  /** Connect mode, first click: the click at `p` picks node 0. */
  lemma PickFirst(ed: Editor, p: Point)
    requires ed.session.mode == Connect && ed.session.pending.None?
    requires HitTest(ed.scene.nodes, p) == Some(0)
    ensures Step(ed, Pressed(LeftButton, p)) == Ok(ed.(session := ed.session.(pending := Some(0))))
  {
    PressConnectFirst(ed, p, 0);
  }

  /** Connect mode, second click on node 2 with node 0 pending and no
      connections yet: the first connection joins node 0 to node 2. */
  lemma JoinToThird(ed: Editor, p: Point)
    requires ed.scene.links == [] && |ed.scene.nodes| == 3
    requires ed.session.mode == Connect && ed.session.pending == Some(0)
    requires HitTest(ed.scene.nodes, p) == Some(2)
    ensures Step(ed, Pressed(LeftButton, p))
            == Ok(Editor(ed.scene.(links := [Link(0, 2)]), ed.session.(pending := None)))
  {
    PressConnectSecond(ed, p, 0, 2);
  }

  /** Delete mode, click on the middle of three nodes joined end to end. */
  lemma DeleteMiddle(ed: Editor, p: Point, n1: Node, n2: Node, n3: Node)
    requires ed.scene == Scene([n1, n2, n3], [Link(0, 2)])
    requires ed.session.mode == Delete
    requires HitTest(ed.scene.nodes, p) == Some(1)
    ensures Step(ed, Pressed(LeftButton, p)) == Ok(ed.(scene := Scene([n1, n3], [Link(0, 1)])))
  {
    PressDeletes(ed, p, 1);
    RemoveMiddle(n1, n2, n3);
    DeleteBetweenEndpoints();
  }

  /** The hit tests the script relies on: each center picks its own square. */
  predicate PicksOwnSquare(p1: Point, p2: Point, p3: Point) {
    var three := [Square(p1), Square(p2), Square(p3)];
    HitTest(three, p1) == Some(0) && HitTest(three, p2) == Some(1) && HitTest(three, p3) == Some(2)
  }

  /** The last five events: connect the first and third, delete the second. */
  lemma ScriptEditStep(p1: Point, p2: Point, p3: Point, k: nat)
    requires PicksOwnSquare(p1, p2, p3)
    requires 5 <= k < 10
    ensures Step(ScriptStates(p1, p2, p3)[k], ScriptEvents(p1, p2, p3)[k]) == Ok(ScriptStates(p1, p2, p3)[k + 1])
  {
    var eds, evs := ScriptStates(p1, p2, p3), ScriptEvents(p1, p2, p3);
    if k == 5 {
      assert Step(eds[5], evs[5]) == Ok(eds[6]) by { ChooseMode(eds[5], Connect); }
    } else if k == 6 {
      assert Step(eds[6], evs[6]) == Ok(eds[7]) by { PickFirst(eds[6], p1); }
    } else if k == 7 {
      assert Step(eds[7], evs[7]) == Ok(eds[8]) by { JoinToThird(eds[7], p3); }
    } else if k == 8 {
      assert Step(eds[8], evs[8]) == Ok(eds[9]) by { ChooseMode(eds[8], Delete); }
    } else {
      assert Step(eds[9], evs[9]) == Ok(eds[10]) by {
        DeleteMiddle(eds[9], p2, Square(p1), Square(p2), Square(p3));
      }
    }
  }

  /** Squares created at three separated centers; the first connected to
      the third; the second deleted: two squares remain, in order, and the
      connection now joins indices 0 and 1. */
  lemma CreateConnectDelete(p1: Point, p2: Point, p3: Point)
    requires Separated(p1, p2, p3)
    ensures var r := Run(Initial(), ScriptEvents(p1, p2, p3));
            && r.Ok?
            && r.value.scene.nodes == [Square(p1), Square(p3)]
            && r.value.scene.links == [Link(0, 1)]
  {
    var states, events := ScriptStates(p1, p2, p3), ScriptEvents(p1, p2, p3);
    ThreeHits(p1, p2, p3);
    assert PicksOwnSquare(p1, p2, p3);
    forall k | 0 <= k < 10
      ensures Step(states[k], events[k]) == Ok(states[k + 1])
    {
      if k < 5 {
        ScriptCreateStep(p1, p2, p3, k);
      } else {
        ScriptEditStep(p1, p2, p3, k);
      }
    }
    RunThrough(states, events, []);
    assert events + [] == events;
  }

  /** From start-up: choose four sides, create squares at (100,100),
      (200,100) and (150,200), connect the first to the third, then delete
      the second. Two squares remain, and the connection now joins nodes 0
      and 1. */
  lemma WorkedExample()
    ensures var r := Run(Initial(), ScriptEvents(Point(100, 100), Point(200, 100), Point(150, 200)));
            && r.Ok?
            && r.value.scene.nodes == [Square(Point(100, 100)), Square(Point(150, 200))]
            && r.value.scene.links == [Link(0, 1)]
  {
    CreateConnectDelete(Point(100, 100), Point(200, 100), Point(150, 200));
  }

  // ---------------------------------------------------------------------
  // A selection that outlives its node

  function StaleEvents(c: Point): seq<Event> {
    [ModeChosen(Move), Pressed(LeftButton, c), ModeChosen(Delete),
     Pressed(LeftButton, c), ModeChosen(Move)]
  }

  /** A node with the start-up radius and side count. */
  function Pentagon(c: Point): Node { Node(c, InitialRadius, InitialSides) }

  /** The start-up session in mode `m`, with node 0 selected or not. */
  function Defaults(m: Mode, selected: Option<nat>): Session {
    Session(m, InitialRadius, InitialSides, selected, Point(0, 0), None)
  }

  /** The editor after each of those events, starting from a single node
      with the start-up defaults centred at `c`. */
  function StaleStates(c: Point): seq<Editor> {
    var one := Scene([Pentagon(c)], []);
    [ Editor(one, Defaults(NoMode, None)),
      Editor(one, Defaults(Move, None)),
      Editor(one, Defaults(Move, Some(0))),
      Editor(one, Defaults(Delete, Some(0))),
      Editor(Scene([], []), Defaults(Delete, Some(0))),
      Editor(Scene([], []), Defaults(Move, Some(0))) ]
  }

  /** The editors of that run, spelled out. */
  lemma StaleStatesSpelled(c: Point)
    ensures StaleStates(c)[0] == Editor(Scene([Pentagon(c)], []), Defaults(NoMode, None))
    ensures StaleStates(c)[1] == Editor(Scene([Pentagon(c)], []), Defaults(Move, None))
    ensures StaleStates(c)[2] == Editor(Scene([Pentagon(c)], []), Defaults(Move, Some(0)))
    ensures StaleStates(c)[3] == Editor(Scene([Pentagon(c)], []), Defaults(Delete, Some(0)))
    ensures StaleStates(c)[4] == Editor(Scene([], []), Defaults(Delete, Some(0)))
    ensures StaleStates(c)[5] == Editor(Scene([], []), Defaults(Move, Some(0)))
  {
  }

  /** In move mode, a press at the center of the only node grabs it with
      no offset. */
  lemma GrabOnlyNode(ed: Editor, c: Point)
    requires ed.scene.nodes == [Pentagon(c)] && ed.session.mode == Move
    ensures Step(ed, Pressed(LeftButton, c)) == Ok(ed.(session := ed.session.(selected := Some(0), offset := Point(0, 0))))
  {
    HitsOwnCenter(Pentagon(c));
    HitOnlyNode(Pentagon(c), c);
    PressGrabs(ed, c, 0);
    assert Sub(c, c) == Point(0, 0);
  }

  /** In delete mode, a press at the center of the only node empties the
      scene. */
  lemma DeleteOnlyNode(ed: Editor, c: Point)
    requires ed.scene == Scene([Pentagon(c)], []) && ed.session.mode == Delete
    ensures Step(ed, Pressed(LeftButton, c)) == Ok(ed.(scene := Scene([], [])))
  {
    HitsOwnCenter(Pentagon(c));
    HitOnlyNode(Pentagon(c), c);
    PressDeletes(ed, c, 0);
    assert RemoveAt([Pentagon(c)], 0) == [];
    assert LinksAfterDelete([], 0) == [];
  }

  lemma GrabPentagon(c: Point)
    ensures Step(Editor(Scene([Pentagon(c)], []), Defaults(Move, None)), Pressed(LeftButton, c))
            == Ok(Editor(Scene([Pentagon(c)], []), Defaults(Move, Some(0))))
  {
    GrabOnlyNode(Editor(Scene([Pentagon(c)], []), Defaults(Move, None)), c);
  }

  lemma DeletePentagon(c: Point)
    ensures Step(Editor(Scene([Pentagon(c)], []), Defaults(Delete, Some(0))), Pressed(LeftButton, c))
            == Ok(Editor(Scene([], []), Defaults(Delete, Some(0))))
  {
    DeleteOnlyNode(Editor(Scene([Pentagon(c)], []), Defaults(Delete, Some(0))), c);
  }

  lemma StaleChooseMove(c: Point)
    ensures Step(StaleStates(c)[0], StaleEvents(c)[0]) == Ok(StaleStates(c)[1])
  {
    ChooseMode(StaleStates(c)[0], Move);
  }

  lemma StaleGrab(c: Point)
    ensures Step(StaleStates(c)[1], StaleEvents(c)[1]) == Ok(StaleStates(c)[2])
  {
    StaleStatesSpelled(c);
    GrabPentagon(c);
  }

  lemma StaleChooseDelete(c: Point)
    ensures Step(StaleStates(c)[2], StaleEvents(c)[2]) == Ok(StaleStates(c)[3])
  {
    ChooseMode(StaleStates(c)[2], Delete);
  }

  lemma StaleDelete(c: Point)
    ensures Step(StaleStates(c)[3], StaleEvents(c)[3]) == Ok(StaleStates(c)[4])
  {
    StaleStatesSpelled(c);
    DeletePentagon(c);
  }

  lemma StaleChooseMoveAgain(c: Point)
    ensures Step(StaleStates(c)[4], StaleEvents(c)[4]) == Ok(StaleStates(c)[5])
  {
    ChooseMode(StaleStates(c)[4], Move);
  }

  lemma StaleStep(c: Point, k: nat)
    requires k < 5
    ensures Step(StaleStates(c)[k], StaleEvents(c)[k]) == Ok(StaleStates(c)[k + 1])
  {
    StaleChooseMove(c);
    StaleGrab(c);
    StaleChooseDelete(c);
    StaleDelete(c);
    StaleChooseMoveAgain(c);
  }

  /** A selection survives a mode change. Grabbing the only node in move
      mode, switching to delete mode and deleting it, then switching back to
      move mode leaves a selection that the next motion writes through out
      of range. `Run` accepts events in any order. Under Qt the release that
      follows the grab would clear the selection, so this sequence needs the
      mode to change while the button is still held (a mode button operated
      from the keyboard, say). Qt also delivers motion only while a button
      is held, and the press that precedes it would miss on the empty scene
      without touching the selection. */
  lemma StaleSelectionFaults(c: Point)
    ensures Run(StaleStates(c)[0], StaleEvents(c) + [Moved(c)]) == Err(SelectionOutOfRange(0))
  {
    var states, events := StaleStates(c), StaleEvents(c);
    forall k | 0 <= k < 5
      ensures Step(states[k], events[k]) == Ok(states[k + 1])
    {
      StaleStep(c, k);
    }
    RunThrough(states, events, [Moved(c)]);
  }
}

=== FILE: scene.dfy ===
/** The scene: an ordered list of polygon nodes and an ordered list of
    connections between node indices, with the scene-level operations the
    interaction handlers perform on it. */
module SceneModel {
  import opened Wrappers
  import opened Geometry

  /** A placed regular polygon. It has no identity besides its index. */
  datatype Node = Node(center: Point, radius: int, sides: int)

  /** A connection between two node indices, in the order they were clicked. */
  datatype Link = Link(start: int, end: int)

  /** The ordered node list and the ordered connection list. */
  datatype Scene = Scene(nodes: seq<Node>, links: seq<Link>)

  // ---------------------------------------------------------------------
  // Hit testing

  /** A click at `pos` lands on `n` when its Manhattan distance to the
      center is at most the node's radius. */
  predicate Hits(n: Node, pos: Point) {
    ManhattanLength(Sub(pos, n.center)) <= n.radius
  }

  /** `i` is the lowest index whose node a click at `pos` lands on. */
  predicate FirstHit(nodes: seq<Node>, pos: Point, i: int) {
    && 0 <= i < |nodes|
    && Hits(nodes[i], pos)
    && forall j :: 0 <= j < i ==> !Hits(nodes[j], pos)
  }

  /** The scan of `enumerate(nodes)` starting at index `from`. */
  function HitFrom(nodes: seq<Node>, pos: Point, from: nat): (r: Option<nat>)
    requires from <= |nodes|
    ensures r.Some? ==> from <= r.value < |nodes| && Hits(nodes[r.value], pos)
    ensures r.Some? ==> forall j :: from <= j < r.value ==> !Hits(nodes[j], pos)
    ensures r.None? ==> forall j :: from <= j < |nodes| ==> !Hits(nodes[j], pos)
    decreases |nodes| - from
  {
    if from == |nodes| then None
    else if Hits(nodes[from], pos) then Some(from)
    else HitFrom(nodes, pos, from + 1)
  }

  /** The node a click at `pos` refers to: the first one in list order
      whose Manhattan distance to the click is within its radius. */
  function HitTest(nodes: seq<Node>, pos: Point): (r: Option<nat>)
    ensures r.Some? ==> FirstHit(nodes, pos, r.value)
    ensures r.None? ==> forall j :: 0 <= j < |nodes| ==> !Hits(nodes[j], pos)
  {
    HitFrom(nodes, pos, 0)
  }

  /** The hit test answers `i` exactly when `i` is the first hit. */
  lemma HitTestIsFirstHit(nodes: seq<Node>, pos: Point, i: int)
    ensures HitTest(nodes, pos) == Some(i) <==> FirstHit(nodes, pos, i)
  {
  }

  // ---------------------------------------------------------------------
  // Connection validity

  /** Both endpoints index existing nodes and differ from each other. */
  predicate LinkValid(l: Link, n: int) {
    0 <= l.start < n && 0 <= l.end < n && l.start != l.end
  }

  /** `l` and `m` join the same two nodes, in either order. */
  predicate SameUnordered(l: Link, m: Link) {
    || (l.start == m.start && l.end == m.end)
    || (l.start == m.end && l.end == m.start)
  }

  /** The connection invariant over `n` nodes: every endpoint is a valid
      index, no connection is a self-loop, and no two connections join the
      same pair of nodes in either order. */
  predicate ValidLinks(links: seq<Link>, n: int) {
    && (forall k :: 0 <= k < |links| ==> LinkValid(links[k], n))
    && (forall j, k :: 0 <= j < k < |links| ==> !SameUnordered(links[j], links[k]))
  }

  predicate ValidScene(s: Scene) {
    ValidLinks(s.links, |s.nodes|)
  }

  lemma ValidLinksTail(links: seq<Link>, n: int)
    requires ValidLinks(links, n) && links != []
    ensures ValidLinks(links[1..], n)
  {
    var rest := links[1..];
    forall j, k | 0 <= j < k < |rest|
      ensures !SameUnordered(rest[j], rest[k])
    {
      assert rest[j] == links[j + 1] && rest[k] == links[k + 1];
    }
  }

  /** A valid connection that duplicates no entry of a valid list can be
      put in front of it. */
  lemma ValidLinksCons(l: Link, links: seq<Link>, n: int)
    requires LinkValid(l, n) && ValidLinks(links, n)
    requires forall k :: 0 <= k < |links| ==> !SameUnordered(l, links[k])
    ensures ValidLinks([l] + links, n)
  {
    var r := [l] + links;
    forall j, k | 0 <= j < k < |r|
      ensures !SameUnordered(r[j], r[k])
    {
      assert r[k] == links[k - 1];
      if j > 0 {
        assert r[j] == links[j - 1];
      }
    }
  }

  // ---------------------------------------------------------------------
  // Create

  /** Appends a node built from the click position and the current defaults. */
  function AddNode(s: Scene, pos: Point, radius: int, sides: int): (r: Scene)
    ensures |r.nodes| == |s.nodes| + 1
    ensures r.nodes[..|s.nodes|] == s.nodes
    ensures r.nodes[|s.nodes|] == Node(pos, radius, sides)
    ensures r.links == s.links
    ensures ValidScene(s) ==> ValidScene(r)
  {
    Scene(s.nodes + [Node(pos, radius, sides)], s.links)
  }

  /** After a create, a click that hit an older node still hits that node. */
  lemma AddNodeKeepsHits(s: Scene, pos: Point, radius: int, sides: int, p: Point)
    requires HitTest(s.nodes, p).Some?
    ensures HitTest(AddNode(s, pos, radius, sides).nodes, p) == HitTest(s.nodes, p)
  {
    var ns := AddNode(s, pos, radius, sides).nodes;
    var h := HitTest(s.nodes, p).value;
    assert forall j :: 0 <= j < |s.nodes| ==> ns[j] == s.nodes[j];
    assert FirstHit(ns, p, h);
    HitTestIsFirstHit(ns, p, h);
  }

  lemma HitAfterAppend(nodes: seq<Node>, pos: Point, n: Node)
    requires forall j :: 0 <= j < |nodes| ==> !Hits(nodes[j], pos)
    requires Hits(n, pos)
    ensures HitTest(nodes + [n], pos) == Some(|nodes|)
  {
    var ns := nodes + [n];
    assert forall j :: 0 <= j < |nodes| ==> !Hits(ns[j], pos);
    assert FirstHit(ns, pos, |nodes|);
    HitTestIsFirstHit(ns, pos, |nodes|);
  }

  /** A node is hit by a click at its own center, unless its radius is
      negative. */
  lemma HitsOwnCenter(n: Node)
    requires n.radius >= 0
    ensures Hits(n, n.center)
  {
    assert Sub(n.center, n.center) == Point(0, 0);
  }

  /** After a create, a click at the new center that hit nothing before now
      hits the new node, provided its radius is not negative. */
  lemma AddNodeIsHit(s: Scene, pos: Point, radius: int, sides: int)
    requires HitTest(s.nodes, pos).None? && radius >= 0
    ensures HitTest(AddNode(s, pos, radius, sides).nodes, pos) == Some(|s.nodes|)
  {
    var n := Node(pos, radius, sides);
    HitsOwnCenter(n);
    HitAfterAppend(s.nodes, pos, n);
    assert AddNode(s, pos, radius, sides).nodes == s.nodes + [n];
  }

  // ---------------------------------------------------------------------
  // Delete

  /** The node list with entry `i` popped. */
  function RemoveAt(nodes: seq<Node>, i: nat): (r: seq<Node>)
    requires i < |nodes|
    ensures |r| == |nodes| - 1
    ensures forall j :: 0 <= j < i ==> r[j] == nodes[j]
    ensures forall j :: i <= j < |r| ==> r[j] == nodes[j + 1]
  {
    nodes[..i] + nodes[i + 1..]
  }

  /** Popping is undone by putting the node back at its index. */
  lemma RemoveAtInverse(nodes: seq<Node>, i: nat)
    requires i < |nodes|
    ensures RemoveAt(nodes, i)[..i] + [nodes[i]] + RemoveAt(nodes, i)[i..] == nodes
  {
    var r := RemoveAt(nodes, i);
    var back := r[..i] + [nodes[i]] + r[i..];
    assert |back| == |nodes|;
    forall j | 0 <= j < |nodes|
      ensures back[j] == nodes[j]
    {
      if j < i {
        assert back[j] == r[j];
      } else if j > i {
        assert back[j] == r[j - 1];
      }
    }
  }

  predicate Touches(l: Link, i: int) {
    l.start == i || l.end == i
  }

  /** The first comprehension of the delete: keep, in order, the connections
      that do not touch node `i`. */
  function DropTouching(links: seq<Link>, i: int): (r: seq<Link>)
    ensures |r| <= |links|
    ensures forall l :: l in r <==> l in links && !Touches(l, i)
    decreases |links|
  {
    if links == [] then []
    else (if Touches(links[0], i) then [] else [links[0]]) + DropTouching(links[1..], i)
  }

  /** Filtering distributes over concatenation, so it keeps relative order. */
  lemma {:induction false} DropTouchingAppend(a: seq<Link>, b: seq<Link>, i: int)
    ensures DropTouching(a + b, i) == DropTouching(a, i) + DropTouching(b, i)
    decreases |a|
  {
    if a != [] {
      assert (a + b)[0] == a[0];
      assert (a + b)[1..] == a[1..] + b;
      DropTouchingAppend(a[1..], b, i);
    } else {
      assert a + b == b;
    }
  }

  /** Filtering keeps the connection invariant: it only removes entries. */
  lemma {:induction false} DropTouchingValid(links: seq<Link>, n: int, i: int)
    requires ValidLinks(links, n)
    ensures ValidLinks(DropTouching(links, i), n)
    decreases |links|
  {
    if links != [] {
      var rest := links[1..];
      ValidLinksTail(links, n);
      DropTouchingValid(rest, n, i);
      var d := DropTouching(rest, i);
      if !Touches(links[0], i) {
        forall k | 0 <= k < |d|
          ensures !SameUnordered(links[0], d[k])
        {
          assert d[k] in d;
          var m :| 0 <= m < |rest| && rest[m] == d[k];
          assert links[m + 1] == d[k];
        }
        ValidLinksCons(links[0], d, n);
        assert DropTouching(links, i) == [links[0]] + d;
      } else {
        assert DropTouching(links, i) == d;
      }
    }
  }

  /** The renumbering of one endpoint after node `i` is deleted. */
  function ShiftIndex(v: int, i: int): int {
    if v < i then v else v - 1
  }

  function ShiftLink(l: Link, i: int): Link {
    Link(ShiftIndex(l.start, i), ShiftIndex(l.end, i))
  }

  /** The second comprehension of the delete: endpoints below `i` stay,
      endpoints at or above `i` drop by one. */
  function Renumber(links: seq<Link>, i: int): (r: seq<Link>)
    ensures |r| == |links|
    ensures forall k :: 0 <= k < |r| ==>
              && (links[k].start < i ==> r[k].start == links[k].start)
              && (links[k].start >= i ==> r[k].start == links[k].start - 1)
              && (links[k].end < i ==> r[k].end == links[k].end)
              && (links[k].end >= i ==> r[k].end == links[k].end - 1)
  {
    seq(|links|, k requires 0 <= k < |links| => ShiftLink(links[k], i))
  }

  /** Renumbering is injective on indices other than `i`, so it keeps the
      connection invariant while shrinking the index range by one. */
  lemma RenumberValid(links: seq<Link>, n: int, i: int)
    requires ValidLinks(links, n) && 0 <= i < n
    requires forall k :: 0 <= k < |links| ==> !Touches(links[k], i)
    ensures ValidLinks(Renumber(links, i), n - 1)
  {
    var r := Renumber(links, i);
    forall j, k | 0 <= j < k < |r|
      ensures !SameUnordered(r[j], r[k])
    {
      assert !SameUnordered(links[j], links[k]);
    }
  }

  /** The connection list after deleting node `i`. */
  function LinksAfterDelete(links: seq<Link>, i: int): seq<Link> {
    Renumber(DropTouching(links, i), i)
  }

  /** Deleting a valid node keeps the connection invariant with one node
      fewer: nothing dangling, no self-loop, no duplicate introduced. */
  lemma LinksAfterDeleteValid(links: seq<Link>, n: int, i: int)
    requires ValidLinks(links, n) && 0 <= i < n
    ensures ValidLinks(LinksAfterDelete(links, i), n - 1)
  {
    var d := DropTouching(links, i);
    DropTouchingValid(links, n, i);
    forall k | 0 <= k < |d|
      ensures !Touches(d[k], i)
    {
      assert d[k] in d;
    }
    RenumberValid(d, n, i);
  }

  /** A connection survives the delete exactly when it is the renumbering of
      an original connection that did not touch node `i`. */
  lemma LinksAfterDeleteMembers(links: seq<Link>, i: int, l: Link)
    ensures l in LinksAfterDelete(links, i) <==>
            exists m :: m in links && !Touches(m, i) && ShiftLink(m, i) == l
  {
    var d := DropTouching(links, i);
    var r := LinksAfterDelete(links, i);
    if l in r {
      var k :| 0 <= k < |r| && r[k] == l;
      assert d[k] in d;
      assert ShiftLink(d[k], i) == l;
    }
    if m :| m in links && !Touches(m, i) && ShiftLink(m, i) == l {
      assert m in d;
      var k :| 0 <= k < |d| && d[k] == m;
      assert r[k] == l;
    }
  }

  /** The inverse renumbering, valid on indices other than the deleted one. */
  function UnshiftIndex(v: int, i: int): int {
    if v < i then v else v + 1
  }

  function Unrenumber(links: seq<Link>, i: int): (r: seq<Link>)
    ensures |r| == |links|
    ensures forall k :: 0 <= k < |r| ==>
              r[k] == Link(UnshiftIndex(links[k].start, i), UnshiftIndex(links[k].end, i))
  {
    seq(|links|, k requires 0 <= k < |links| =>
      Link(UnshiftIndex(links[k].start, i), UnshiftIndex(links[k].end, i)))
  }

  /** Undoing the renumbering gives back exactly the surviving original
      connections, in their original order. */
  lemma UnrenumberAfterDelete(links: seq<Link>, i: int)
    ensures Unrenumber(LinksAfterDelete(links, i), i) == DropTouching(links, i)
  {
    var d := DropTouching(links, i);
    var u := Unrenumber(LinksAfterDelete(links, i), i);
    assert |u| == |d|;
    forall k | 0 <= k < |d|
      ensures u[k] == d[k]
    {
      assert d[k] in d;
    }
  }

  /** Delete at a click position: the first hit node is removed together with
      its connections and the remaining connections are renumbered; a click
      that hits nothing leaves the scene as it is. */
  function DeleteAt(s: Scene, pos: Point): (r: Scene)
    ensures HitTest(s.nodes, pos).None? ==> r == s
    ensures HitTest(s.nodes, pos).Some? ==>
              var i := HitTest(s.nodes, pos).value;
              r.nodes == RemoveAt(s.nodes, i) && r.links == LinksAfterDelete(s.links, i)
    ensures ValidScene(s) ==> ValidScene(r)
  {
    match HitTest(s.nodes, pos)
    case None => s
    case Some(i) =>
      var r := Scene(RemoveAt(s.nodes, i), LinksAfterDelete(s.links, i));
      if ValidScene(s) then LinksAfterDeleteValid(s.links, |s.nodes|, i); r else r
  }

  // ---------------------------------------------------------------------
  // Connect

  /** The pair `a`, `b` is already connected, in either order. */
  predicate Linked(links: seq<Link>, a: int, b: int) {
    Link(a, b) in links || Link(b, a) in links
  }

  /** Appends the connection `(a, b)` unless `(a, b)` or `(b, a)` is present. */
  function AddLink(links: seq<Link>, a: int, b: int): (r: seq<Link>)
    ensures Linked(r, a, b)
    ensures |links| <= |r| <= |links| + 1 && r[..|links|] == links
    ensures r == links <==> Linked(links, a, b)
    ensures !Linked(links, a, b) ==> r == links + [Link(a, b)]
  {
    if Linked(links, a, b) then links else links + [Link(a, b)]
  }

  /** Adding a connection between two distinct valid nodes keeps the
      connection invariant. */
  lemma AddLinkValid(links: seq<Link>, n: int, a: int, b: int)
    requires ValidLinks(links, n)
    requires 0 <= a < n && 0 <= b < n && a != b
    ensures ValidLinks(AddLink(links, a, b), n)
  {
    if !Linked(links, a, b) {
      var r := AddLink(links, a, b);
      forall j, k | 0 <= j < k < |r|
        ensures !SameUnordered(r[j], r[k])
      {
        if k == |links| {
          assert r[j] == links[j];
          assert r[j] in links;
        }
      }
    }
  }

  /** Connecting `b` to `a` after `a` to `b` changes nothing. */
  lemma AddLinkEitherOrderOnce(links: seq<Link>, a: int, b: int)
    ensures AddLink(AddLink(links, a, b), b, a) == AddLink(links, a, b)
  {
  }

  /** The number of entries that join `a` and `b`, in either order. */
  function PairCount(links: seq<Link>, a: int, b: int): nat
    decreases |links|
  {
    if links == [] then 0
    else (if SameUnordered(links[0], Link(a, b)) then 1 else 0) + PairCount(links[1..], a, b)
  }

  lemma {:induction false} PairCountZero(links: seq<Link>, a: int, b: int)
    requires forall k :: 0 <= k < |links| ==> !SameUnordered(links[k], Link(a, b))
    ensures PairCount(links, a, b) == 0
    decreases |links|
  {
    if links != [] {
      assert forall k :: 0 <= k < |links[1..]| ==> links[1..][k] == links[k + 1];
      PairCountZero(links[1..], a, b);
    }
  }

  /** Under the connection invariant an unordered pair that is linked
      occurs exactly once. */
  lemma {:induction false} PairCountOne(links: seq<Link>, n: int, a: int, b: int)
    requires ValidLinks(links, n) && Linked(links, a, b)
    ensures PairCount(links, a, b) == 1
    decreases |links|
  {
    var rest := links[1..];
    assert forall k :: 0 <= k < |rest| ==> rest[k] == links[k + 1];
    if SameUnordered(links[0], Link(a, b)) {
      PairCountZero(rest, a, b);
    } else {
      assert Link(a, b) in rest || Link(b, a) in rest;
      ValidLinksTail(links, n);
      PairCountOne(rest, n, a, b);
    }
  }

  /** Connecting `a` to `b` and then `b` to `a` leaves exactly one
      connection between the two nodes. */
  lemma ConnectBothOrdersOnce(links: seq<Link>, n: int, a: int, b: int)
    requires ValidLinks(links, n)
    requires 0 <= a < n && 0 <= b < n && a != b
    ensures PairCount(AddLink(AddLink(links, a, b), b, a), a, b) == 1
  {
    AddLinkValid(links, n, a, b);
    AddLinkEitherOrderOnce(links, a, b);
    PairCountOne(AddLink(links, a, b), n, a, b);
  }
}

=== FILE: wrappers.dfy ===
/** The Option and Result datatypes shared by the editor model. */
module Wrappers {

  /** An optional value: the source's `None` or an actual value. */
  datatype Option<+T> = None | Some(value: T)

  /** The outcome of an operation that can raise in the source. */
  datatype Result<+T, +E> = Ok(value: T) | Err(error: E)
}
